=== FILE: README.md ===
# Shared UI components of the marketing site, modelled in Dafny

The site's shared React components are pure functions of their props plus a
little hook state. This project models six of them:

- **`getNodeText`** (`node_text.dfy`) walks a render tree and returns its text.
  Strings pass through unchanged. Numbers become their decimal numerals.
  `null`, `undefined`, booleans and unknown objects give `""`. An element is
  transparent: its text is its `props.children`'s. An array maps its items,
  joins them with a single space and trims the result.
- **The JavaScript built-ins these components use** (`js_string.dfy`): `trim`
  (built from its halves `trimStart` and `trimEnd`), `join`, `startsWith` and
  integer `toString`. Each has a partner: a characterisation, an inverse (a
  decimal parser, a one-character `split` with its helper `indexOf`) or a
  reference definition. The `includes('#')` test in `Link` is Dafny's `in`
  on the string, and `split('')` in `BlinkingText` is the string itself as a
  sequence of characters.
- **`Link`** (`link.dfy`) chooses between a plain anchor and the client-side
  link from its `to` prop. It also builds the class list and works out the
  analytics event a click reports.
- **`CardItemsList`** (`card_items_list.dfy`) is a grid of cards. A two-field
  hover state (`hoverCount`, `activeItemIndex`) is updated by the pointer
  handlers. Each card's target, rel, footer and highlighted border is
  decided while rendering.
- **`Admonition`** (`admonition.dfy`) looks up a theme, and falls back to
  `note` for an unknown type. It shows the title or the type as its heading.
  Its body is either raw HTML or the rendered children.
- **`BlinkingText`** (`blinking_text.dfy`) renders one paused span per
  character. Its effect schedules the located letter spans in shuffled order
  to start blinking, 10 ms apart.
- **`CanvasVideo`** (`canvas_video.dfy`) is a hidden video mirrored into a
  canvas. Its playback is a state machine over four values:
  - `showVideo`: lazy loading is off, or the wrapper has been seen;
  - `inView`;
  - `isVideoReady`;
  - `isPlaying`.

  Three effects drive it, and each reruns only when its dependency values
  change. `Player.Commit` runs them in source order. The model proves that
  `isPlaying` always ends up as the playback decision taken on the values
  of the render, even though effects are skipped when their dependencies
  are unchanged. A background-colour probe reads the pixel at bytes 60-62
  of an 8×8 RGBA sample. If that pixel is black it retries; otherwise it
  reports `rgb(r,g,b)`, which reads back as exactly those channels.

State the source changes in place is modelled with classes:
- the card grid's hover state;
- the player's hook state, refs and call log;
- the video and canvas elements;
- the letter spans.

Everything else is modelled with datatypes and functions.

Running the leaf texts together would be the natural reading of "the text
of a node". The code (`src/utils/get-node-text.ts:22`) instead joins an
array's item texts with a space and trims the result, and the model follows
the code:
- `NodeText.TextIsLeavesUpToWhitespace` proves that the two agree once
  whitespace is ignored;
- `NodeText.WordTreeText` proves that on trees of blank-free words the text
  is exactly the words joined by single spaces;
- `NodeText.NullSiblingDoublesSpace` shows that they differ in spacing
  otherwise.

## Model

| member | source | states |
|---|---|---|
| NodeText.GetNodeText | src/utils/get-node-text.ts:10-31 | null, booleans and unrecognised values give ""; a string is returned unchanged; a number's text is exactly `IntToString` of it, the canonical decimal numeral, and parses back to the number; an array's text never starts or ends with whitespace, and an empty array gives "" |
| NodeText.ElementTransparent | src/utils/get-node-text.ts:24 | an element's text is exactly the text of its `props.children` |
| NodeText.Texts | src/utils/get-node-text.ts:22 | `items.map(getNodeText)`: one text per item, the i-th being the i-th item's text |
| NodeText.TextIsLeavesUpToWhitespace | src/utils/get-node-text.ts:10-31 | up to whitespace, a node's text is its string and number leaves run together in document order: nothing is dropped, added or reordered except blanks |
| NodeText.ArrayUpToWhitespace | src/utils/get-node-text.ts:22 | the array case of the above: join-with-space then trim changes only whitespace |
| NodeText.ItemsUpToWhitespace | src/utils/get-node-text.ts:22 | the item texts, whitespace dropped and run together, equal the items' leaves run together with whitespace dropped |
| NodeText.WordTreeText | src/utils/get-node-text.ts:13-25 | on a tree whose leaves are non-empty strings without edge whitespace, or numbers, the text is the leaves joined by single spaces, however deeply arrays and elements nest |
| NodeText.WordForestText | src/utils/get-node-text.ts:22 | joining the texts of a non-empty list of word trees equals joining all their leaves |
| NodeText.IntToStringWord | src/utils/get-node-text.ts:16 | a number's text is non-empty and has no edge whitespace |
| NodeText.NullSiblingDoublesSpace | src/utils/get-node-text.ts:22 | `["a", null, "b"]` gives "a  b": a null item still contributes an empty part, so two spaces meet |
| NodeText.StringLeafKeepsBlanks | src/utils/get-node-text.ts:14-22 | a bare string " a " keeps its blanks, the same string inside an array is trimmed to "a" |
| JsString.LeadingBlanks | src/utils/get-node-text.ts:22 | the count of leading whitespace, after which the next character (if any) is not whitespace |
| JsString.TrailingBlanks | src/utils/get-node-text.ts:22 | the count of trailing whitespace, before which the previous character (if any) is not whitespace |
| JsString.TrimStart | src/utils/get-node-text.ts:22 | the result is empty or starts on a non-whitespace character |
| JsString.TrimEnd | src/utils/get-node-text.ts:22 | the result is empty or ends on a non-whitespace character |
| JsString.Trim | src/utils/get-node-text.ts:22 | the result is no longer than the input and neither starts nor ends with whitespace (ECMAScript WhiteSpace and LineTerminator code points) |
| JsString.TrimPadded | src/utils/get-node-text.ts:22 | any string with no edge whitespace, padded on both sides by whitespace runs, trims back to exactly itself; this pins `trim` down uniquely |
| JsString.TrimBlank | src/utils/get-node-text.ts:22 | an all-whitespace string trims to "" |
| JsString.TrimNoEdge | src/utils/get-node-text.ts:22 | a string without edge whitespace is its own trim |
| JsString.TrimIdempotent | src/utils/get-node-text.ts:22 | trimming twice is trimming once |
| JsString.TrimStartKeepsNonWhitespace | src/utils/get-node-text.ts:22 | `trimStart` removes only whitespace |
| JsString.TrimEndKeepsNonWhitespace | src/utils/get-node-text.ts:22 | `trimEnd` removes only whitespace |
| JsString.TrimKeepsNonWhitespace | src/utils/get-node-text.ts:22 | `trim` removes only whitespace: the non-whitespace characters are kept, in order |
| JsString.RemoveWhitespace | src/utils/get-node-text.ts:22 | the reference filter used above: no longer than its input, and free of whitespace |
| JsString.RemoveWhitespaceAppend | src/utils/get-node-text.ts:22 | the filter distributes over concatenation |
| JsString.Join | src/utils/get-node-text.ts:22 | `join` of no parts is "" |
| JsString.JoinBlankKeepsNonWhitespace | src/utils/get-node-text.ts:22 | joining with a whitespace separator adds only whitespace: the filtered result is the filtered parts run together |
| JsString.JoinNoEdge | src/utils/get-node-text.ts:22 | joining non-empty parts without edge whitespace gives a string without edge whitespace |
| JsString.JoinNonEmpty | src/utils/get-node-text.ts:22 | a join whose first part is non-empty is non-empty |
| JsString.JoinAppend | src/utils/get-node-text.ts:22 | joining two non-empty lists of parts end to end is joining each and putting the separator between |
| JsString.ConcatAppend | src/utils/get-node-text.ts:22 | running parts together distributes over appending the part lists |
| JsString.RemoveWhitespaceEach | src/utils/get-node-text.ts:22 | one filtered part per part, pointwise |
| JsString.IntToString | src/utils/get-node-text.ts:16 | `Number.prototype.toString` on an integer: non-empty, with a leading '-' exactly for negatives, and the rest a canonical decimal numeral (digits only, no superfluous leading zero); with `IntToStringRoundTrip` this fixes the string uniquely |
| JsString.NatToString | src/utils/get-node-text.ts:16 | the decimal numeral of a natural number has no superfluous leading zero, and is one digit exactly below 10 |
| JsString.ParseInt | src/utils/get-node-text.ts:16 | the partner parser: a parsed value is negative exactly when the text starts with '-' and is not zero |
| JsString.IntToStringRoundTrip | src/utils/get-node-text.ts:16 | parsing an integer's numeral gives the integer back |
| JsString.NatToStringValue | src/utils/get-node-text.ts:16 | the numeral of n has digit value n |
| JsString.CanonicalDigitsRoundTrip | src/utils/get-node-text.ts:16 | every numeral without a superfluous leading zero is the numeral of its own value, so printing is a bijection onto such numerals |
| JsString.StartsWith | src/components/shared/link.tsx:129 | `s.startsWith(prefix)` holds exactly when `prefix` fits in `s` and agrees with it character by character |
| JsString.Split | src/components/shared/canvas-video.tsx:101 | the partner of the colour string: `split` on a one-character separator gives at least one part and no part contains the separator |
| JsString.SplitJoin | src/components/shared/canvas-video.tsx:101 | splitting a join of separator-free parts gives the parts back |
| JsString.IndexOf | src/components/shared/canvas-video.tsx:101 | helper of `Split`, the partner of the colour string built here: the first occurrence of the separator, which is there and not before |
| Link.ThemeKey | src/components/shared/link.tsx:40-66 | each theme's key as spelled in the style table; every key reads back as its own theme, so the `style` a click reports names the theme unambiguously |
| Link.Route | src/components/shared/link.tsx:121-148 | the client-side link is chosen exactly when `to` has no '#' and starts with '/'; otherwise a plain anchor; the element's `href` is `to`; only the client-side link carries `prefetch` |
| Link.Classes | src/components/shared/link.tsx:91-97 | in `clsx` order: base layout, size style, theme style first; then the caller's classes exactly when non-empty; then the group layout exactly when there is an arrow or an icon; the length is 3 plus one for each of those, so each part occurs once |
| Link.When | src/components/shared/link.tsx:96 | `cond && part` in a class list contributes the part exactly when the condition holds |
| Link.WithHref | src/components/shared/link.tsx:123 | a later `href` attribute replaces the element's `href` and keeps its kind and `prefetch` |
| Link.Render | src/components/shared/link.tsx:74-150 | with the defaults applied (`to` = "", no arrow, size md, theme black, no extra classes), the class list is `Classes` of those; the element's kind is the route of `to`; its `href` is a caller's own `href` from the spread rest props when given, else `to`; the link's own click handler is attached exactly when the caller passes no `onClick`; arrow and icon as given |
| Link.HandleClick | src/components/shared/link.tsx:101-108 | no event without a non-empty `tagName`; otherwise exactly one "Link clicked" event whose style is the theme key, whose tag name is `tagName` and whose text is a non-empty `tagText`, else `getNodeText(children)` |
| CardItemsList.NextHoverCount | src/components/shared/card-items-list.tsx:78 | 0 goes to 1, 1 goes to 0, any other value increases |
| CardItemsList.HoverCountIsParity | src/components/shared/card-items-list.tsx:76-80 | after n pointer entries from the initial 0 the counter is n mod 2: it only ever toggles between 0 and 1 |
| CardItemsList.HoverState.constructor | src/components/shared/card-items-list.tsx:24-25 | the counter starts at 0 and no card is active |
| CardItemsList.HoverState.PointerEnter | src/components/shared/card-items-list.tsx:76-80 | the entered card becomes active and the counter toggles between 0 and 1 |
| CardItemsList.HoverState.PointerLeave | src/components/shared/card-items-list.tsx:81-85 | no card is active and the counter is 0 |
| CardItemsList.TargetAndRel | src/components/shared/card-items-list.tsx:74-75 | a URL starting with "http" opens in a new tab with `noopener noreferrer`; any other stays in place with an empty rel |
| CardItemsList.FooterOf | src/components/shared/card-items-list.tsx:118-130 | a footer exactly for large cards; "Coming soon" exactly for large disabled cards; otherwise the call to action, which is `linkText` when that is non-empty and "View example" otherwise |
| CardItemsList.RenderCard | src/components/shared/card-items-list.tsx:63-147 | the card links through `Link` to its URL; it is highlighted exactly when it is the active card; a disabled card takes no pointer events; target, rel and footer as above |
| CardItemsList.RenderCards | src/components/shared/card-items-list.tsx:63-148 | one card per item in order, and no two cards highlighted |
| CardItemsList.AtMostOneHighlighted | src/components/shared/card-items-list.tsx:138 | the set of highlighted cards has at most one member |
| Admonition.LookupTheme | src/components/shared/admonition.tsx:65 | a known type key finds the theme with that key; anything else falls back to the note theme |
| Admonition.ThemeKey | src/components/shared/admonition.tsx:30-61 | each theme's key in the table is a known type key |
| Admonition.ThemeKeysExactly | src/components/shared/admonition.tsx:13-20 | the known type keys are exactly the six themes' keys |
| Admonition.LookupThemeKey | src/components/shared/admonition.tsx:30-65 | every theme is found again by its own key |
| Admonition.TypeText | src/components/shared/admonition.tsx:64 | "Coming soon" for `comingSoon`, the key itself otherwise |
| Admonition.Heading | src/components/shared/admonition.tsx:79 | a non-empty title wins, else the type's text; the heading of a known type is never empty |
| Admonition.BodyOf | src/components/shared/admonition.tsx:82-89 | raw HTML exactly when `asHTML`, holding the children if they are a string and "" otherwise; without `asHTML` the children unchanged |
| Admonition.Render | src/components/shared/admonition.tsx:63-92 | with the defaults applied (type note, no children, no HTML), the theme is the looked-up one; the heading is empty only for an explicit empty type with no title |
| BlinkingText.SpanText | src/components/shared/blinking-text.tsx:35-39 | the characters the spans show, in order |
| BlinkingText.Render | src/components/shared/blinking-text.tsx:34-40 | an empty text renders the children; any other text renders spans showing exactly its characters in order, every one paused |
| BlinkingText.TimerLetters | src/components/shared/blinking-text.tsx:23-27 | the letter of each timer, in order |
| BlinkingText.ScheduleBlink | src/components/shared/blinking-text.tsx:17-32 | without a parent or the start flag nothing is scheduled; otherwise the k-th shuffled letter gets a timer at 10·k ms, and the timers start each located letter as often as it was located |
| BlinkingText.ScheduledOnce | src/components/shared/blinking-text.tsx:19-30 | with distinct located letters, each is scheduled exactly once |
| BlinkingText.FireTimers | src/components/shared/blinking-text.tsx:24-27 | once the timers fire every scheduled letter is running, and only scheduled letters are touched |
| BlinkingText.Letter.constructor | src/components/shared/blinking-text.tsx:36 | a letter span starts paused |
| CanvasVideo.PlaybackStep | src/components/shared/canvas-video.tsx:134-143 | start exactly when shown, in view, ready and not playing; stop exactly when out of view, ready and playing; the two never both hold |
| CanvasVideo.NextPlaying | src/components/shared/canvas-video.tsx:134-143 | `isPlaying` changes only when the video is ready, and then becomes "shown and in view" |
| CanvasVideo.ProbeBackgroundColor | src/components/shared/canvas-video.tsx:91-103 | retry exactly when bytes 60, 61 and 62 of the 8×8 sample are all zero; otherwise exactly `RgbString` of those three bytes, the `rgb(r,g,b)` template with canonical numerals, which parses back to exactly those bytes |
| CanvasVideo.RgbString | src/components/shared/canvas-video.tsx:101 | the colour string starts with `rgb(`, ends with `)`, and between them holds the three channel numerals joined by commas |
| CanvasVideo.ParseRgb | src/components/shared/canvas-video.tsx:101 | the partner reader: it accepts only `rgb(...)` strings whose inside splits into exactly three comma-separated parts |
| CanvasVideo.RgbRoundTrip | src/components/shared/canvas-video.tsx:101 | `rgb(${r},${g},${b})` reads back as (r, g, b) |
| CanvasVideo.RgbStringShape | src/components/shared/canvas-video.tsx:101 | the template is the three numerals joined by commas inside `rgb(` and `)` |
| CanvasVideo.NoCommaInNumeral | src/components/shared/canvas-video.tsx:101 | an integer's numeral has no comma |
| CanvasVideo.Video.constructor | src/components/shared/canvas-video.tsx:55-60 | before its metadata loads a video reports a zero width and height |
| CanvasVideo.Video.LoadMetadata | src/components/shared/canvas-video.tsx:77-80 | once the metadata has loaded the video reports its intrinsic size |
| CanvasVideo.Canvas.constructor | src/components/shared/canvas-video.tsx:147 | a fresh canvas is 300×150 and has a 2D context or not |
| CanvasVideo.Player.constructor | src/components/shared/canvas-video.tsx:15-34 | the first render: not seen, not ready, not playing, no frame request, no listener, no effect run yet, no call made |
| CanvasVideo.Player.ShowVideo | src/components/shared/canvas-video.tsx:36 | an eager video is always shown; a lazy one exactly once its wrapper has been seen |
| CanvasVideo.Player.VideoRef | src/components/shared/canvas-video.tsx:148-161 | `videoRef.current` is the video exactly while it is shown, and null otherwise |
| CanvasVideo.Player.PlayCalls | src/components/shared/canvas-video.tsx:105-120 | no call without video and canvas; otherwise the video is played first; with a 2D context the next two calls are exactly a draw and the frame request, and a colour probe follows exactly when there is also a colour setter; the exact length follows (0, 1, 3 or 4) |
| CanvasVideo.Player.PauseCalls | src/components/shared/canvas-video.tsx:123-131 | no call without video; otherwise the video is paused first, and a frame request is cancelled exactly when one was recorded, the recorded id; the exact length is 0, 1 or 2 |
| CanvasVideo.Player.Observe | src/components/shared/canvas-video.tsx:30-36 | the observer fires once: once seen the wrapper stays seen and a shown video stays shown |
| CanvasVideo.Player.SetInView | src/components/shared/canvas-video.tsx:19 | a new `inView` prop keeps the state invariant |
| CanvasVideo.Player.OnVideoReady | src/components/shared/canvas-video.tsx:46-53 | with a canvas and a rendered video the canvas takes the video's intrinsic size; otherwise the canvas is untouched |
| CanvasVideo.Player.OnMount | src/components/shared/canvas-video.tsx:58-65 | ready exactly when the video is rendered and reports a positive width |
| CanvasVideo.Player.Play | src/components/shared/canvas-video.tsx:105-120 | appends exactly the play calls; records the frame request id exactly when a frame was requested |
| CanvasVideo.Player.Pause | src/components/shared/canvas-video.tsx:123-131 | appends exactly the pause calls; the recorded frame request id is kept |
| CanvasVideo.Player.ReadinessEffect | src/components/shared/canvas-video.tsx:71-83 | runs only on changed `[isVideoReady, showVideo]`; when shown and ready it sizes the canvas and otherwise leaves the canvas as it was; when shown, not ready and rendered it adds exactly one metadata listener and records it, otherwise none |
| CanvasVideo.Player.MountEffect | src/components/shared/canvas-video.tsx:85-89 | runs only on a changed `showVideo`; when shown, readiness becomes the positive-width check |
| CanvasVideo.Player.PlaybackEffect | src/components/shared/canvas-video.tsx:134-143 | runs only on changed dependencies; then `isPlaying` becomes the playback decision, the play or pause calls are made, and the frame request id is the one `play` requested, if any; a skipped effect changes none of these |
| CanvasVideo.Player.Commit | src/components/shared/canvas-video.tsx:71-143 | keeps the state invariant; `isPlaying` is always the playback decision on the render's values, even when the effect is skipped; playing changes only while ready; nothing happens while the video is not shown; the whole new state is given as the three effects compose it in order: dependency records, readiness, listeners, the calls (a listener registration, then the play or pause calls), the frame request id, and the canvas size, which is left as it was unless the readiness effect sizes it |
| CanvasVideo.Player.OnLoadedMetadata | src/components/shared/canvas-video.tsx:77-80 | once a listener is registered, the metadata event makes the video ready and sizes the canvas; with no listener the canvas is left as it was |

## Left out

- The analytics call is an `Event` value that `Link.HandleClick` returns. `sendGtagEvent`, which hands it to `window.zaraz.track` only when `window.zaraz` exists, is not part of this model.
- Of the rest props that `Link` spreads onto its element, only a caller's `href` and `onClick` are modelled, because they replace the link's own. Others (`target`, `rel`, pointer handlers, aria attributes) are passed through without logic.
- React, Next.js and framer-motion are left out: rendering, reconciliation, keys, refs forwarding, `LazyMotion` and `useAnimation` (`controls.start`). Class names are modelled as ordered parts, not as the Tailwind strings themselves.
- The opacity and duration variants that card-items-list.tsx derives from `hoverCount`, and its `isLoad` flag, are visual only and are left out.
- Timers, `requestAnimationFrame`, the intersection observer and the browser's video decoding are inputs or recorded calls, not behaviour:
  - `setTimeout` becomes a `Timer` value;
  - a frame request's id is a parameter of `Player.Commit`;
  - the observer's report is `Player.Observe`;
  - the metadata load is `Video.LoadMetadata`.
- CanvasVideo.Player.Play: records the first frame of the render loop only. The loop's re-requests on every frame, and the 1000 ms retry of the colour probe, are repeated timer callbacks that are not modelled. `ProbeBackgroundColor` models one probe.
- `console.warn` in getNodeText's default branch is output only and is left out.
- NodeText.GetNodeText: numbers are integers only. Non-integral numbers, `NaN`, infinities, and the exponent form `Number.prototype.toString` uses from 1e21 up are not modelled.
- JsString.IntToString: the same limit; it models the plain decimal form only.
- NodeText.GetNodeText: an object whose `props` is `null` makes the source throw; the model has no such value.
- BlinkingText.Render: splits into Dafny characters. The source's `split('')` splits into UTF-16 code units, so a character outside the Basic Multilingual Plane becomes two spans there.
- BlinkingText.ScheduleBlink: `lodash.shuffle`'s randomness is a parameter. The caller passes the permutation it produced, and the contract holds for every permutation.
- Admonition.LookupTheme: a type key that names a property of `Object.prototype` (such as `constructor`) finds that property rather than falling back to the note theme. The model falls back for every unknown key.
- CanvasVideo.Player: the `lazyLoading` prop is fixed for the component's lifetime (a `const` field). The source re-reads it on every render, so a parent switching `lazyLoading` from false to true would hide a shown video there; the model, and `Player.Observe`'s "a shown video stays shown", assume it does not. The `const hasBackgroundSetter` is no such simplification: `play` is memoised with no dependencies (canvas-video.tsx:105-120), so the source keeps the first render's `setBackgroundColor` too.
- CanvasVideo.Player.OnMount: the `typeof video.videoWidth === 'number'` check always holds for the integer field, so it is not modelled separately.
- CanvasVideo.Player.Commit: batches the state updates of one commit's effects into the next commit. React may flush them differently, so the effect order within a commit is modelled as written but the scheduling granularity is not.
- The props `srcMp4`, `srcWebm`, `className`, `autoPlay` and `preload` of the video, the card `icon`, `title` and `description`, and the admonition icons and colours are passed straight to markup and carry no logic.
- animated-button.tsx and blog-post-author.tsx are not part of this model.

=== FILE: admonition.dfy ===
/**
 * The admonition callout: the theme picked for its type, the heading it
 * shows, and whether its body is raw HTML or the rendered children.
 */
module Admonition {
  import opened Wrappers
  import opened JsString
  import NodeText

  /** The keys of the theme table. */
  datatype ThemeName = Note | Important | Tip | Warning | Info | ComingSoon

  /** The theme's key in the table. */
  function ThemeKey(t: ThemeName): (key: string)
    ensures IsThemeKey(key)
  {
    match t
    case Note => "note"
    case Important => "important"
    case Tip => "tip"
    case Warning => "warning"
    case Info => "info"
    case ComingSoon => "comingSoon"
  }

  /** `key` is one of the table's six keys. */
  predicate IsThemeKey(key: string) {
    key == "note" || key == "important" || key == "tip" || key == "warning"
    || key == "info" || key == "comingSoon"
  }

  /** `themes[type] || themes.note`: the theme for a known key, the note theme for anything else. */
  function LookupTheme(key: string): (t: ThemeName)
    ensures IsThemeKey(key) ==> ThemeKey(t) == key
    ensures !IsThemeKey(key) ==> t == Note
  {
    if key == "important" then Important
    else if key == "tip" then Tip
    else if key == "warning" then Warning
    else if key == "info" then Info
    else if key == "comingSoon" then ComingSoon
    else Note
  }

  /** Looking a theme up by its own key finds it again. */
  lemma {:induction false} LookupThemeKey(t: ThemeName)
    ensures LookupTheme(ThemeKey(t)) == t
  {
    match t
    case Note =>
    case Important =>
    case Tip =>
    case Warning =>
    case Info =>
    case ComingSoon =>
  }

  /** The known keys are exactly the themes' keys. */
  lemma ThemeKeysExactly(key: string)
    ensures IsThemeKey(key) <==> exists t :: ThemeKey(t) == key
  {
    if IsThemeKey(key) {
      assert ThemeKey(LookupTheme(key)) == key;
    }
  }

  /** The type as a heading: "Coming soon" for `comingSoon`, the type name verbatim otherwise. */
  function TypeText(key: string): (r: string)
    ensures key == "comingSoon" ==> r == "Coming soon"
    ensures key != "comingSoon" ==> r == key
  {
    if key == "comingSoon" then "Coming soon" else key
  }

  datatype AdmonitionProps = AdmonitionProps(
    children: Option<NodeText.Node>,
    kind: Option<string>,
    title: Option<string>,
    asHTML: Option<bool>)

  /** The body: raw HTML to inject, or the children rendered as they are. */
  datatype Body =
    | RawHtml(html: string)
    | Rendered(children: NodeText.Node)

  datatype AdmonitionView = AdmonitionView(theme: ThemeName, heading: string, body: Body)

  /** `title || typeText`: a non-empty title wins, else the type's text. */
  function Heading(title: Option<string>, key: string): (r: string)
    ensures Truthy(title) ==> r == title.value
    ensures !Truthy(title) ==> r == TypeText(key)
    ensures IsThemeKey(key) ==> r != ""
  {
    if Truthy(title) then title.value else TypeText(key)
  }

  /**
   * With `asHTML` the body is the children when they are a string and `""`
   * otherwise; without it the children are passed through unchanged.
   */
  function BodyOf(asHTML: bool, children: NodeText.Node): (b: Body)
    ensures asHTML <==> b.RawHtml?
    ensures asHTML && children.Str? ==> b.html == children.s
    ensures asHTML && !children.Str? ==> b.html == ""
    ensures !asHTML ==> b.children == children
  {
    if asHTML then RawHtml(if children.Str? then children.s else "") else Rendered(children)
  }

  /** The callout once defaults apply: type `note`, no children (`null`), no HTML. */
  function Render(p: AdmonitionProps): (v: AdmonitionView)
    ensures p.kind.None? ==> v.theme == Note
    ensures v.theme == LookupTheme(p.kind.GetOr("note"))
    ensures v.heading == Heading(p.title, p.kind.GetOr("note"))
    ensures v.heading != "" || (p.kind == Some("") && !Truthy(p.title))
    ensures v.body == BodyOf(p.asHTML.GetOr(false), p.children.GetOr(NodeText.Null))
  {
    var key := p.kind.GetOr("note");
    AdmonitionView(LookupTheme(key), Heading(p.title, key), BodyOf(p.asHTML.GetOr(false), p.children.GetOr(NodeText.Null)))
  }
}

=== FILE: blinking_text.dfy ===
/**
 * The blinking text: one paused span per character, and an effect that
 * schedules the located letters, in shuffled order, to start blinking
 * 10 ms apart.
 */
module BlinkingText {
  import NodeText

  datatype PlayState = Paused | Running

  /** A letter span in the page, whose inline style the scheduled action overwrites. */
  class Letter {
    var playState: PlayState

    constructor ()
      ensures playState == Paused
    {
      playState := Paused;
    }
  }

  datatype Span = Span(letter: char, playState: PlayState)

  datatype Rendered =
    | Letters(spans: seq<Span>)
    | Passthrough(children: NodeText.Node)

  /** The characters the spans show, in order. */
  function SpanText(spans: seq<Span>): (s: string)
    ensures |s| == |spans|
    ensures forall i :: 0 <= i < |spans| ==> s[i] == spans[i].letter
  {
    if spans == [] then [] else [spans[0].letter] + SpanText(spans[1..])
  }

  /**
   * A non-empty text becomes one span per character, in order, each with
   * its animation paused; an empty text renders the children unchanged.
   */
  function Render(text: string, children: NodeText.Node): (r: Rendered)
    ensures text == [] ==> r == Passthrough(children)
    ensures text != [] ==> r.Letters? && SpanText(r.spans) == text
    ensures r.Letters? ==> forall i :: 0 <= i < |r.spans| ==> r.spans[i].playState == Paused
  {
    if text == [] then Passthrough(children)
    else Letters(seq(|text|, i requires 0 <= i < |text| => Span(text[i], Paused)))
  }

  /** One `setTimeout`: the letter to start and its delay in milliseconds. */
  datatype Timer = Timer(letter: Letter, delay: nat)

  const Stagger := 10

  function TimerLetters(timers: seq<Timer>): (r: seq<Letter>)
    ensures |r| == |timers|
    ensures forall k :: 0 <= k < |timers| ==> r[k] == timers[k].letter
  {
    if timers == [] then [] else [timers[0].letter] + TimerLetters(timers[1..])
  }

  /**
   * The effect. Unless a parent element is present and the animation
   * should start, nothing is scheduled. Otherwise the k-th letter of the
   * shuffled order gets a timer at 10·k ms, so every located letter is
   * scheduled exactly as often as it was located; `shuffled` is the
   * permutation that the shuffle produced.
   */
  method ScheduleBlink(hasParent: bool, shouldAnimationStart: bool, located: seq<Letter>, shuffled: seq<Letter>)
    returns (timers: seq<Timer>)
    requires multiset(shuffled) == multiset(located)
    ensures !(hasParent && shouldAnimationStart) ==> timers == []
    ensures hasParent && shouldAnimationStart ==>
      && |timers| == |shuffled| == |located|
      && (forall k :: 0 <= k < |timers| ==> timers[k] == Timer(shuffled[k], Stagger * k))
      && multiset(TimerLetters(timers)) == multiset(located)
  {
    timers := [];
    if hasParent && shouldAnimationStart {
      var currentTimeout := 0;
      var k := 0;
      while k < |shuffled|
        invariant 0 <= k <= |shuffled|
        invariant currentTimeout == Stagger * k
        invariant |timers| == k
        invariant forall j :: 0 <= j < k ==> timers[j] == Timer(shuffled[j], Stagger * j)
      {
        timers := timers + [Timer(shuffled[k], currentTimeout)];
        currentTimeout := currentTimeout + Stagger;
        k := k + 1;
      }
      assert TimerLetters(timers) == shuffled;
      assert |located| == |multiset(located)| == |shuffled|;
    }
  }

  /** With distinct located letters, each one is scheduled exactly once. */
  lemma ScheduledOnce(located: seq<Letter>, timers: seq<Timer>, l: Letter)
    requires forall i, j :: 0 <= i < j < |located| ==> located[i] != located[j]
    requires multiset(TimerLetters(timers)) == multiset(located)
    requires l in located
    ensures multiset(TimerLetters(timers))[l] == 1
  {
    DistinctCount(located, l);
  }

  lemma {:induction false} DistinctCount(s: seq<Letter>, l: Letter)
    requires forall i, j :: 0 <= i < j < |s| ==> s[i] != s[j]
    requires l in s
    ensures multiset(s)[l] == 1
  {
    if s[0] == l {
      assert l !in s[1..];
      assert s == [s[0]] + s[1..];
    } else {
      DistinctCount(s[1..], l);
      assert s == [s[0]] + s[1..];
    }
  }

  /** The set of letters that some timer starts. */
  function TimedLetters(timers: seq<Timer>): set<Letter> {
    set t | t in timers :: t.letter
  }

  /**
   * The timers firing, in delay order (which is their order here): each
   * sets its letter's animation running. Afterwards every scheduled letter
   * runs, and no other letter is touched.
   */
  method FireTimers(timers: seq<Timer>)
    modifies TimedLetters(timers)
    ensures forall t :: t in timers ==> t.letter.playState == Running
  {
    var k := 0;
    while k < |timers|
      invariant 0 <= k <= |timers|
      invariant forall j :: 0 <= j < k ==> timers[j].letter.playState == Running
    {
      timers[k].letter.playState := Running;
      k := k + 1;
    }
  }
}

=== FILE: canvas_video.dfy ===
/**
 * The canvas-mirrored video: a hidden video whose frames are drawn into a
 * canvas. Playback is a small state machine over `showVideo` (lazy loading
 * or the wrapper having been seen), the `inView` prop, `isVideoReady` and
 * `isPlaying`, driven by three effects; the effects' calls into the
 * browser are recorded, not performed.
 */
module CanvasVideo {
  import opened Wrappers
  import opened JsString

  type Byte = b: int | 0 <= b < 256

  /** The hidden video element; its intrinsic size is known once its metadata has loaded. */
  class Video {
    var videoWidth: int
    var videoHeight: int

    constructor ()
      ensures videoWidth == 0 && videoHeight == 0
    {
      videoWidth, videoHeight := 0, 0;
    }

    /** The browser has read the video's metadata. */
    method LoadMetadata(width: int, height: int)
      modifies this
      ensures videoWidth == width && videoHeight == height
    {
      videoWidth, videoHeight := width, height;
    }
  }

  /** The canvas the frames are drawn into; `hasContext` is whether it yields a 2D context. */
  class Canvas {
    var width: int
    var height: int
    const hasContext: bool

    constructor (hasContext: bool)
      ensures this.hasContext == hasContext
      ensures width == 300 && height == 150
    {
      this.hasContext := hasContext;
      width, height := 300, 150;
    }
  }

  /** A call the component makes into the browser. */
  datatype Call =
    | PlayVideo
    | PauseVideo
    | DrawFrame               // `drawImage` of the current video frame
    | RequestFrame(id: int)   // `requestAnimationFrame`, which returned `id`
    | CancelFrame(id: int)
    | ProbeBackground         // the first colour probe on the drawing context
    | AddMetadataListener

  // ------------------------------------------------ the playback decision

  datatype Step = StartPlaying | StopPlaying | Stay

  /**
   * What the playback effect does: start when the video is shown, in view
   * and ready and not yet playing; stop when out of view, ready and playing.
   * The two conditions exclude each other, so at most one fires.
   */
  function PlaybackStep(showVideo: bool, inView: bool, ready: bool, playing: bool): (s: Step)
    ensures s == StartPlaying <==> showVideo && inView && ready && !playing
    ensures s == StopPlaying <==> !inView && ready && playing
  {
    if showVideo && inView && ready && !playing then StartPlaying
    else if !inView && ready && playing then StopPlaying
    else Stay
  }

  /** `isPlaying` once the playback effect has run on these values. */
  function NextPlaying(showVideo: bool, inView: bool, ready: bool, playing: bool): (r: bool)
    ensures r != playing ==> ready && (r <==> showVideo && inView)
  {
    match PlaybackStep(showVideo, inView, ready, playing)
    case StartPlaying => true
    case StopPlaying => false
    case Stay => playing
  }

  // ------------------------------------------------- the background probe

  /** The outcome of a colour probe: try again later, or report a colour. */
  datatype Probe = Retry | Report(color: string)

  /** The probe samples an 8×8 RGBA block: 256 bytes. */
  const SampleBytes := 8 * 8 * 4
  /** The red byte of the pixel in column 7 of row 1; green and blue follow it. */
  const ProbeIndex := 4 * (8 * 1 + 7)

  /** `rgb(r,g,b)` with each channel in decimal: the three numerals joined by commas, in `rgb(` and `)`. */
  function RgbString(r: int, g: int, b: int): (s: string)
    ensures |s| >= 10 && s[..4] == "rgb(" && s[|s| - 1] == ')'
    ensures s[4..|s| - 1] == Join([IntToString(r), IntToString(g), IntToString(b)], [','])
  {
    RgbStringShape(IntToString(r), IntToString(g), IntToString(b));
    "rgb(" + IntToString(r) + "," + IntToString(g) + "," + IntToString(b) + ")"
  }

  /** Reads back an `rgb(r,g,b)` string; anything else is `None`. */
  function ParseRgb(s: string): (c: Option<(int, int, int)>)
    ensures c.Some? ==> |s| >= 5 && s[..4] == "rgb(" && s[|s| - 1] == ')' && |Split(s[4..|s| - 1], ',')| == 3
  {
    if |s| < 5 || s[..4] != "rgb(" || s[|s| - 1] != ')' then None
    else
      var parts := Split(s[4..|s| - 1], ',');
      if |parts| != 3 then None
      else
        match (ParseInt(parts[0]), ParseInt(parts[1]), ParseInt(parts[2]))
        case (Some(r), Some(g), Some(b)) => Some((r, g, b))
        case _ => None
  }

  lemma RgbRoundTrip(r: int, g: int, b: int)
    ensures ParseRgb(RgbString(r, g, b)) == Some((r, g, b))
  {
    var rs, gs, bs := IntToString(r), IntToString(g), IntToString(b);
    var inner := Join([rs, gs, bs], [',']);
    NoCommaInNumeral(r);
    NoCommaInNumeral(g);
    NoCommaInNumeral(b);
    SplitJoin([rs, gs, bs], ',');
    IntToStringRoundTrip(r);
    IntToStringRoundTrip(g);
    IntToStringRoundTrip(b);
    var s := RgbString(r, g, b);
    assert s[4..|s| - 1] == inner;
  }

  /** The template literal is the three numerals joined by commas, wrapped in `rgb(` and `)`. */
  lemma RgbStringShape(rs: string, gs: string, bs: string)
    ensures var s := "rgb(" + rs + "," + gs + "," + bs + ")";
      |s| >= 5 && s[..4] == "rgb(" && s[|s| - 1] == ')' && s[4..|s| - 1] == Join([rs, gs, bs], [','])
  {
    var inner := rs + "," + gs + "," + bs;
    JoinThree(rs, gs, bs, [',']);
    assert "rgb(" + rs + "," + gs + "," + bs + ")" == "rgb(" + inner + ")";
    Wrapped(inner);
  }

  lemma Wrapped(inner: string)
    ensures var s := "rgb(" + inner + ")";
      |s| >= 5 && s[..4] == "rgb(" && s[|s| - 1] == ')' && s[4..|s| - 1] == inner
  {
  }

  lemma NoCommaInNumeral(n: int)
    ensures ',' !in IntToString(n)
  {
    var d := NatToString(if n < 0 then -n else n);
    DigitsHaveNo(d, ',');
    if n < 0 {
      assert IntToString(n) == "-" + d;
    }
  }

  /**
   * `setBackgroundColorIfPossible` on one sample: an all-zero probe pixel
   * (a frame not drawn yet) means retry; otherwise the pixel's colour is
   * reported as the `rgb(r,g,b)` template of its three channel bytes, which
   * reads back as exactly those bytes.
   */
  function ProbeBackgroundColor(data: seq<Byte>): (p: Probe)
    requires |data| == SampleBytes
    ensures p.Retry? <==> data[60] == 0 && data[61] == 0 && data[62] == 0
    ensures p.Report? ==> p.color == RgbString(data[60], data[61], data[62])
    ensures p.Report? ==> ParseRgb(p.color) == Some((data[60], data[61], data[62]))
  {
    var r, g, b := data[ProbeIndex], data[ProbeIndex + 1], data[ProbeIndex + 2];
    if r == 0 && g == 0 && b == 0 then Retry
    else RgbRoundTrip(r, g, b); Report(RgbString(r, g, b))
  }

  // ------------------------------------------------------- the component

  class Player {
    const lazyLoading: bool
    const hasBackgroundSetter: bool
    const video: Video
    const canvas: Canvas?

    /** The wrapper has come within the observer's margin; the observer fires once. */
    var wrapperInView: bool
    /** The `inView` prop. */
    var inView: bool
    var isVideoReady: bool
    var isPlaying: bool
    /** `requestAnimationFrameId.current`. */
    var frameRequestId: Option<int>
    /** The `loadedmetadata` listeners added so far. */
    var metadataListeners: nat
    /** The dependency values each effect last ran with (`None` before the first commit). */
    var readinessDeps: Option<(bool, bool)>
    var mountDeps: Option<bool>
    var playbackDeps: Option<(bool, bool, bool, bool)>
    /** The calls made into the browser, oldest first. */
    var calls: seq<Call>

    /** `!lazyLoading || wrapperInView`: an eager video is always shown, a lazy one once its wrapper was seen. */
    function ShowVideo(): (shown: bool)
      reads this`wrapperInView
      ensures !lazyLoading ==> shown
      ensures lazyLoading ==> (shown <==> wrapperInView)
    {
      !lazyLoading || wrapperInView
    }

    /** `videoRef.current`: the video element is only rendered while the video is shown. */
    function VideoRef(): (v: Video?)
      reads this`wrapperInView
      ensures v != null <==> ShowVideo()
      ensures v != null ==> v == video
    {
      if ShowVideo() then video else null
    }

    ghost predicate Valid()
      reads this
    {
      && (mountDeps == Some(true) ==> ShowVideo())
      && (isVideoReady ==> mountDeps == Some(true))
      && (metadataListeners > 0 ==> mountDeps == Some(true))
      && (isPlaying ==> isVideoReady)
      && (playbackDeps.Some? ==>
            var (seen, playing, ready, show) := playbackDeps.value;
            isPlaying == NextPlaying(show, seen, ready, playing))
    }

    constructor (lazyLoading: bool, hasBackgroundSetter: bool, inView: bool, video: Video, canvas: Canvas?)
      ensures Valid()
      ensures this.lazyLoading == lazyLoading && this.hasBackgroundSetter == hasBackgroundSetter
      ensures this.inView == inView && this.video == video && this.canvas == canvas
      ensures !wrapperInView && !isVideoReady && !isPlaying && frameRequestId == None
      ensures metadataListeners == 0 && calls == []
      ensures readinessDeps == None && mountDeps == None && playbackDeps == None
    {
      this.lazyLoading, this.hasBackgroundSetter := lazyLoading, hasBackgroundSetter;
      this.inView, this.video, this.canvas := inView, video, canvas;
      wrapperInView, isVideoReady, isPlaying := false, false, false;
      frameRequestId := None;
      metadataListeners := 0;
      readinessDeps, mountDeps, playbackDeps := None, None, None;
      calls := [];
    }

    /** The calls `play` makes: none without video and canvas; drawing only with a 2D context. */
    function PlayCalls(frameId: int): (r: seq<Call>)
      reads this`wrapperInView
      ensures r == [] <==> VideoRef() == null || canvas == null
      ensures r != [] ==> r[0] == PlayVideo
      ensures RequestFrame(frameId) in r <==> VideoRef() != null && canvas != null && canvas.hasContext
      ensures ProbeBackground in r <==> VideoRef() != null && canvas != null && canvas.hasContext && hasBackgroundSetter
      ensures |r| == if VideoRef() == null || canvas == null then 0
                     else 1 + (if canvas.hasContext then 2 + (if hasBackgroundSetter then 1 else 0) else 0)
      ensures VideoRef() != null && canvas != null && canvas.hasContext ==> r[1..3] == [DrawFrame, RequestFrame(frameId)]
      ensures VideoRef() != null && canvas != null && canvas.hasContext && hasBackgroundSetter ==> r[3] == ProbeBackground
    {
      if VideoRef() == null || canvas == null then []
      else
        var drawing := [DrawFrame, RequestFrame(frameId)] + (if hasBackgroundSetter then [ProbeBackground] else []);
        [PlayVideo] + (if canvas.hasContext then drawing else [])
    }

    /** The calls `pause` makes: none without video; a cancel only for a recorded frame request. */
    function PauseCalls(): (r: seq<Call>)
      reads this`wrapperInView, this`frameRequestId
      ensures r == [] <==> VideoRef() == null
      ensures r != [] ==> r[0] == PauseVideo
      ensures forall id :: CancelFrame(id) in r <==> VideoRef() != null && frameRequestId == Some(id)
      ensures |r| == if VideoRef() == null then 0 else 1 + (if frameRequestId.Some? then 1 else 0)
    {
      if VideoRef() == null then []
      else [PauseVideo] + (if frameRequestId.Some? then [CancelFrame(frameRequestId.value)] else [])
    }

    /** The calls the playback effect makes when it runs on these values. */
    function PlaybackCalls(seen: bool, playing: bool, ready: bool, show: bool, frameId: int): seq<Call>
      reads this`wrapperInView, this`frameRequestId
    {
      match PlaybackStep(show, seen, ready, playing)
      case StartPlaying => PlayCalls(frameId)
      case StopPlaying => PauseCalls()
      case Stay => []
    }

    /** The frame request id after the playback effect ran on these values. */
    function PlaybackFrameId(seen: bool, playing: bool, ready: bool, show: bool, frameId: int): Option<int>
      reads this`wrapperInView, this`frameRequestId
    {
      if PlaybackStep(show, seen, ready, playing) == StartPlaying && RequestFrame(frameId) in PlayCalls(frameId)
      then Some(frameId) else frameRequestId
    }

    /** The intersection observer reports; once the wrapper has been seen it stays seen. */
    method Observe(intersecting: bool)
      requires Valid()
      modifies this`wrapperInView
      ensures Valid()
      ensures wrapperInView == (old(wrapperInView) || intersecting)
      ensures old(ShowVideo()) ==> ShowVideo()
    {
      wrapperInView := wrapperInView || intersecting;
    }

    /** The parent passes a new `inView`. */
    method SetInView(seen: bool)
      requires Valid()
      modifies this`inView
      ensures Valid() && inView == seen
    {
      inView := seen;
    }

    /** `onVideoReady`: with canvas and video, the canvas takes the video's intrinsic size. */
    method OnVideoReady()
      modifies canvas
      ensures canvas != null && VideoRef() != null ==>
        canvas.width == video.videoWidth && canvas.height == video.videoHeight
      ensures canvas != null && VideoRef() == null ==> unchanged(canvas)
    {
      var v := VideoRef();
      if canvas != null && v != null {
        canvas.width := v.videoWidth;
        canvas.height := v.videoHeight;
      }
    }

    /** `onMount`: the video counts as ready exactly when it reports a positive width. */
    method OnMount()
      modifies this`isVideoReady
      ensures isVideoReady == (VideoRef() != null && video.videoWidth > 0)
    {
      var v := VideoRef();
      isVideoReady := v != null && v.videoWidth > 0;
    }

    /** `play`: start the video and the render loop, and probe the colour when asked to. */
    method Play(frameId: int)
      modifies this`frameRequestId, this`calls
      ensures calls == old(calls) + PlayCalls(frameId)
      ensures frameRequestId ==
        if RequestFrame(frameId) in PlayCalls(frameId) then Some(frameId) else old(frameRequestId)
    {
      var v := VideoRef();
      if v == null || canvas == null {
        return;
      }
      calls := calls + [PlayVideo];
      if canvas.hasContext {
        calls := calls + [DrawFrame, RequestFrame(frameId)];
        frameRequestId := Some(frameId);
        if hasBackgroundSetter {
          calls := calls + [ProbeBackground];
        }
      }
    }

    /** `pause`: stop the video and cancel the recorded frame request; the id is kept. */
    method Pause()
      modifies this`calls
      ensures calls == old(calls) + old(PauseCalls())
    {
      var v := VideoRef();
      if v == null {
        return;
      }
      calls := calls + [PauseVideo];
      if frameRequestId.Some? {
        calls := calls + [CancelFrame(frameRequestId.value)];
      }
    }

    /** The effect on `[isVideoReady, showVideo]`: size the canvas, or wait for the metadata. */
    method ReadinessEffect(ready: bool, show: bool)
      modifies this`readinessDeps, this`metadataListeners, this`calls, canvas
      ensures readinessDeps == Some((ready, show))
      ensures var listen := old(readinessDeps) != Some((ready, show)) && show && !ready && VideoRef() != null;
        && metadataListeners == old(metadataListeners) + (if listen then 1 else 0)
        && calls == old(calls) + (if listen then [AddMetadataListener] else [])
      ensures var sized := old(readinessDeps) != Some((ready, show)) && show && ready && VideoRef() != null;
        && (sized && canvas != null ==> canvas.width == video.videoWidth && canvas.height == video.videoHeight)
        && (!sized && canvas != null ==> unchanged(canvas))
    {
      if readinessDeps != Some((ready, show)) {
        readinessDeps := Some((ready, show));
        if show {
          if ready {
            OnVideoReady();
          } else if VideoRef() != null {
            metadataListeners := metadataListeners + 1;
            calls := calls + [AddMetadataListener];
          }
        }
      }
    }

    /** The effect on `[showVideo]`: check readiness once the video is shown. */
    method MountEffect(show: bool)
      modifies this`mountDeps, this`isVideoReady
      ensures mountDeps == Some(show)
      ensures isVideoReady ==
        if old(mountDeps) != Some(show) && show then VideoRef() != null && video.videoWidth > 0
        else old(isVideoReady)
    {
      if mountDeps != Some(show) {
        mountDeps := Some(show);
        if show {
          OnMount();
        }
      }
    }

    /** The effect on `[inView, isPlaying, isVideoReady, showVideo]`: enter playing or paused. */
    method PlaybackEffect(seen: bool, playing: bool, ready: bool, show: bool, frameId: int)
      requires playing == isPlaying
      modifies this`playbackDeps, this`isPlaying, this`frameRequestId, this`calls
      ensures playbackDeps == Some((seen, playing, ready, show))
      ensures var fire := old(playbackDeps) != Some((seen, playing, ready, show));
        var step := PlaybackStep(show, seen, ready, playing);
        && isPlaying == (if fire then NextPlaying(show, seen, ready, playing) else playing)
        && calls == old(calls) + (if fire then old(PlaybackCalls(seen, playing, ready, show, frameId)) else [])
        && frameRequestId == (if fire then old(PlaybackFrameId(seen, playing, ready, show, frameId)) else old(frameRequestId))
    {
      if playbackDeps != Some((seen, playing, ready, show)) {
        playbackDeps := Some((seen, playing, ready, show));
        if show && seen && ready && !playing {
          isPlaying := true;
          Play(frameId);
        }
        if !seen && ready && playing {
          isPlaying := false;
          Pause();
        }
      }
    }

    /**
     * One commit: the three effects run in source order on the values of
     * the render, whose state updates take effect at the next commit. An
     * effect runs only when its dependencies changed, yet `isPlaying`
     * always ends up as the playback decision on the render's values.
     */
    method Commit(frameId: int)
      requires Valid()
      modifies this`readinessDeps, this`mountDeps, this`playbackDeps, this`isVideoReady,
        this`isPlaying, this`frameRequestId, this`metadataListeners, this`calls, canvas
      ensures Valid()
      ensures isPlaying == NextPlaying(old(ShowVideo()), old(inView), old(isVideoReady), old(isPlaying))
      ensures old(isPlaying) != isPlaying ==> old(isVideoReady) && isVideoReady
      ensures !old(ShowVideo()) ==> isVideoReady == old(isVideoReady) && calls == old(calls)
      ensures var show, seen, ready, playing := ShowVideo(), old(inView), old(isVideoReady), old(isPlaying);
        var readiness := old(readinessDeps) != Some((ready, show));
        var playback := old(playbackDeps) != Some((seen, playing, ready, show));
        var listen := readiness && show && !ready && VideoRef() != null;
        var sized := readiness && show && ready && VideoRef() != null;
        && readinessDeps == Some((ready, show)) && mountDeps == Some(show)
        && playbackDeps == Some((seen, playing, ready, show))
        && isVideoReady == (if old(mountDeps) != Some(show) && show then video.videoWidth > 0 else ready)
        && metadataListeners == old(metadataListeners) + (if listen then 1 else 0)
        && calls == old(calls) + (if listen then [AddMetadataListener] else [])
                   + (if playback then old(PlaybackCalls(seen, playing, ready, show, frameId)) else [])
        && frameRequestId == (if playback then old(PlaybackFrameId(seen, playing, ready, show, frameId)) else old(frameRequestId))
        && (sized && canvas != null ==> canvas.width == video.videoWidth && canvas.height == video.videoHeight)
        && (!sized && canvas != null ==> unchanged(canvas))
    {
      var show, seen, ready, playing := ShowVideo(), inView, isVideoReady, isPlaying;
      ReadinessEffect(ready, show);
      MountEffect(show);
      PlaybackEffect(seen, playing, ready, show, frameId);
    }

    /** The `loadedmetadata` listeners fire: the canvas is sized and the video becomes ready. */
    method OnLoadedMetadata()
      requires Valid()
      modifies this`isVideoReady, canvas
      ensures Valid()
      ensures isVideoReady == (old(isVideoReady) || metadataListeners > 0)
      ensures metadataListeners > 0 && canvas != null ==>
        canvas.width == video.videoWidth && canvas.height == video.videoHeight
      ensures metadataListeners == 0 && canvas != null ==> unchanged(canvas)
    {
      if metadataListeners > 0 {
        OnVideoReady();
        isVideoReady := true;
      }
    }
  }
}

=== FILE: card_items_list.dfy ===
/**
 * The hoverable card grid: a two-field hover state that the pointer
 * handlers update, and the per-card choices (link target and rel, the
 * highlighted border, the footer) made while rendering.
 */
module CardItemsList {
  import opened Wrappers
  import opened JsString
  import Link

  datatype Item = Item(
    icon: string,
    title: string,
    description: string,
    linkText: Option<string>,
    url: string,
    isDisabled: bool)

  datatype CardSize = Large | Medium

  /** The footer under a card's description. */
  datatype Footer =
    | NoFooter
    | ViewLink(text: string)   // the green call to action with an arrow
    | ComingSoon

  datatype CardView = CardView(
    element: Link.Element,
    target: string,
    rel: string,
    pointerEventsNone: bool,
    highlighted: bool,
    footer: Footer)

  /** The `hoverCount` after a pointer enters a card: one becomes zero, anything else goes up by one. */
  function NextHoverCount(prev: int): (r: int)
    ensures prev == 0 ==> r == 1
    ensures prev == 1 ==> r == 0
    ensures prev != 1 ==> r > prev
  {
    if prev == 1 then 0 else prev + 1
  }

  /** `hoverCount` after `enters` pointer entries with no leave, starting from its initial zero. */
  function HoverCountAfter(enters: nat): int {
    if enters == 0 then 0 else NextHoverCount(HoverCountAfter(enters - 1))
  }

  /** Entries alternate the counter between 0 and 1: it is the parity of their number. */
  lemma {:induction false} HoverCountIsParity(enters: nat)
    ensures HoverCountAfter(enters) == enters % 2
  {
    if enters > 0 {
      HoverCountIsParity(enters - 1);
    }
  }

  /** The hover state of one card grid. */
  class HoverState {
    var hoverCount: int
    var activeItemIndex: Option<nat>

    ghost predicate Valid()
      reads this
    {
      hoverCount == 0 || hoverCount == 1
    }

    /** No card active (the state starts `undefined`) and a zero counter. */
    constructor ()
      ensures Valid()
      ensures hoverCount == 0 && activeItemIndex == None
    {
      hoverCount := 0;
      activeItemIndex := None;
    }

    /** The pointer enters card `index`: it becomes active and the counter toggles. */
    method PointerEnter(index: nat)
      requires Valid()
      modifies this
      ensures Valid()
      ensures activeItemIndex == Some(index)
      ensures hoverCount == 1 - old(hoverCount)
    {
      activeItemIndex := Some(index);
      hoverCount := NextHoverCount(hoverCount);
    }

    /** The pointer leaves a card: nothing is active and the counter resets. */
    method PointerLeave()
      requires Valid()
      modifies this
      ensures Valid()
      ensures activeItemIndex == None && hoverCount == 0
    {
      activeItemIndex := None;
      hoverCount := 0;
    }
  }

  /** `url.startsWith('http')` picks a new tab with `noopener noreferrer`; anything else stays in place. */
  function TargetAndRel(url: string): (r: (string, string))
    ensures StartsWith(url, "http") ==> r == ("_blank", "noopener noreferrer")
    ensures !StartsWith(url, "http") ==> r == ("_self", "")
  {
    if StartsWith(url, "http") then ("_blank", "noopener noreferrer") else ("_self", "")
  }

  /**
   * Only large cards have a footer: an enabled one shows its `linkText`, or
   * "View example" when that is absent or empty; a disabled one shows
   * "Coming soon".
   */
  function FooterOf(size: CardSize, item: Item): (r: Footer)
    ensures r != NoFooter <==> size == Large
    ensures r.ComingSoon? <==> size == Large && item.isDisabled
    ensures r.ViewLink? && Truthy(item.linkText) ==> r.text == item.linkText.value
    ensures r.ViewLink? && !Truthy(item.linkText) ==> r.text == "View example"
  {
    if size == Large && !item.isDisabled then ViewLink(if Truthy(item.linkText) then item.linkText.value else "View example")
    else if size == Large then ComingSoon
    else NoFooter
  }

  /** Card `index` gets the green border exactly when it is the active card. */
  predicate Highlighted(active: Option<nat>, index: nat) {
    active == Some(index)
  }

  function RenderCard(size: CardSize, item: Item, index: nat, active: Option<nat>): (v: CardView)
    ensures v.element == Link.Route(item.url, None)
    ensures v.highlighted <==> active == Some(index)
    ensures v.pointerEventsNone == item.isDisabled
    ensures (v.target, v.rel) == TargetAndRel(item.url)
    ensures v.footer == FooterOf(size, item)
  {
    var (target, rel) := TargetAndRel(item.url);
    CardView(Link.Route(item.url, None), target, rel, item.isDisabled, Highlighted(active, index), FooterOf(size, item))
  }

  /**
   * The whole grid: one card per item, in order, and at most one of them
   * highlighted, namely the active one.
   */
  function RenderCards(size: CardSize, items: seq<Item>, active: Option<nat>): (r: seq<CardView>)
    ensures |r| == |items|
    ensures forall i :: 0 <= i < |items| ==> r[i] == RenderCard(size, items[i], i, active)
    ensures forall i, j :: 0 <= i < |r| && 0 <= j < |r| && r[i].highlighted && r[j].highlighted ==> i == j
  {
    seq(|items|, i requires 0 <= i < |items| => RenderCard(size, items[i], i, active))
  }

  /** The highlighted cards, as a set of indices, hold at most one index. */
  lemma AtMostOneHighlighted(size: CardSize, items: seq<Item>, active: Option<nat>)
    ensures var r := RenderCards(size, items, active);
      |set i | 0 <= i < |r| && r[i].highlighted| <= 1
  {
    var r := RenderCards(size, items, active);
    var lit := set i | 0 <= i < |r| && r[i].highlighted;
    if active.Some? && active.value < |r| {
      assert lit == {active.value};
    } else {
      assert lit == {};
    }
  }
}

=== FILE: js_string.dfy ===
/**
 * The JavaScript built-ins the components lean on, stated over `string`
 * (a sequence of `char`): `String.prototype.trim` (built from its two
 * halves, `trimStart` and `trimEnd`), `Array.prototype.join`,
 * `String.prototype.startsWith` and `Number.prototype.toString` on
 * integers, with a decimal parser as the partner of the last one and
 * a `split` on one separator (with its helper `indexOf`) as the partner of
 * `join`. `includes` of one character is Dafny's `in` on the string, and
 * `split('')` is the string itself as a sequence of characters.
 */
module JsString {
  import opened Wrappers

  // ---------------------------------------------------------------- trim

  /**
   * The ECMAScript WhiteSpace and LineTerminator code points, which is the
   * set `String.prototype.trim` strips: TAB, LF, VT, FF, CR, SPACE, NBSP,
   * OGHAM SPACE MARK, EN QUAD .. HAIR SPACE, LINE and PARAGRAPH SEPARATOR,
   * NARROW NBSP, MEDIUM MATHEMATICAL SPACE, IDEOGRAPHIC SPACE and the BOM.
   */
  predicate IsWhitespace(c: char) {
    c as int in WhitespaceCodes
  }

  const WhitespaceCodes: set<int> := {
    0x09, 0x0A, 0x0B, 0x0C, 0x0D, 0x20, 0xA0, 0x1680,
    0x2000, 0x2001, 0x2002, 0x2003, 0x2004, 0x2005, 0x2006, 0x2007, 0x2008, 0x2009, 0x200A,
    0x2028, 0x2029, 0x202F, 0x205F, 0x3000, 0xFEFF
  }

  /** Every character is whitespace (stated recursively, so the solver unfolds it on demand). */
  predicate AllWhitespace(s: string) {
    s == [] || (IsWhitespace(s[0]) && AllWhitespace(s[1..]))
  }

  lemma {:induction false} AllWhitespaceAppend(a: string, b: string)
    ensures AllWhitespace(a + b) <==> AllWhitespace(a) && AllWhitespace(b)
  {
    if a == [] {
      assert a + b == b;
    } else {
      assert (a + b)[0] == a[0] && (a + b)[1..] == a[1..] + b;
      AllWhitespaceAppend(a[1..], b);
    }
  }

  /** Neither the first nor the last character is whitespace. */
  predicate NoEdgeWhitespace(s: string) {
    s == [] || (!IsWhitespace(s[0]) && !IsWhitespace(s[|s| - 1]))
  }

  /** How many whitespace characters `s` starts with. */
  function LeadingBlanks(s: string): (n: nat)
    ensures n <= |s|
    ensures n < |s| ==> !IsWhitespace(s[n])
  {
    if |s| > 0 && IsWhitespace(s[0]) then 1 + LeadingBlanks(s[1..]) else 0
  }

  /** How many whitespace characters `s` ends with. */
  function TrailingBlanks(s: string): (n: nat)
    ensures n <= |s|
    ensures n < |s| ==> !IsWhitespace(s[|s| - 1 - n])
  {
    if |s| > 0 && IsWhitespace(s[|s| - 1]) then 1 + TrailingBlanks(s[..|s| - 1]) else 0
  }

  /** `String.prototype.trimStart`: `s` from its first non-whitespace character on. */
  function TrimStart(s: string): (r: string)
    ensures r == [] || !IsWhitespace(r[0])
  {
    s[LeadingBlanks(s)..]
  }

  /** `String.prototype.trimEnd`: `s` up to and including its last non-whitespace character. */
  function TrimEnd(s: string): (r: string)
    ensures r == [] || !IsWhitespace(r[|r| - 1])
  {
    s[..|s| - TrailingBlanks(s)]
  }

  /**
   * `String.prototype.trim`: `s` with its leading and trailing whitespace
   * removed. The result neither starts nor ends with whitespace;
   * `TrimPadded` shows that it is the only such string that `s` holds
   * between two runs of whitespace, and `TrimKeepsNonWhitespace` that
   * nothing else is removed.
   */
  function Trim(s: string): (r: string)
    ensures NoEdgeWhitespace(r)
    ensures |r| <= |s|
  {
    var t := TrimStart(s);
    var r := TrimEnd(t);
    assert r != [] ==> r[0] == t[0];
    r
  }

  lemma {:induction false} LeadingBlanksPadded(p: string, u: string)
    requires AllWhitespace(p)
    requires u == [] || !IsWhitespace(u[0])
    ensures LeadingBlanks(p + u) == |p|
  {
    if p == [] {
      assert p + u == u;
    } else {
      assert (p + u)[0] == p[0] && (p + u)[1..] == p[1..] + u;
      LeadingBlanksPadded(p[1..], u);
    }
  }

  lemma {:induction false} TrailingBlanksPadded(u: string, q: string)
    requires AllWhitespace(q)
    requires u == [] || !IsWhitespace(u[|u| - 1])
    ensures TrailingBlanks(u + q) == |q|
  {
    if q == [] {
      assert u + q == u;
    } else {
      var q' := q[..|q| - 1];
      assert q == q' + [q[|q| - 1]];
      AllWhitespaceAppend(q', [q[|q| - 1]]);
      assert (u + q)[|u + q| - 1] == q[|q| - 1];
      assert (u + q)[..|u + q| - 1] == u + q';
      TrailingBlanksPadded(u, q');
    }
  }

  lemma TrimStartPadded(p: string, u: string)
    requires AllWhitespace(p)
    requires u == [] || !IsWhitespace(u[0])
    ensures TrimStart(p + u) == u
  {
    LeadingBlanksPadded(p, u);
  }

  lemma TrimEndPadded(u: string, q: string)
    requires AllWhitespace(q)
    requires u == [] || !IsWhitespace(u[|u| - 1])
    ensures TrimEnd(u + q) == u
  {
    TrailingBlanksPadded(u, q);
    assert (u + q)[..|u|] == u;
  }

  /** `s` holding `r` between two runs of whitespace trims to exactly `r`. */
  lemma TrimPadded(p: string, r: string, q: string)
    requires AllWhitespace(p) && AllWhitespace(q)
    requires NoEdgeWhitespace(r) && r != []
    ensures Trim(p + r + q) == r
  {
    assert p + r + q == p + (r + q);
    TrimStartPadded(p, r + q);
    TrimEndPadded(r, q);
  }

  /** A string that is all whitespace trims to nothing. */
  lemma TrimBlank(s: string)
    requires AllWhitespace(s)
    ensures Trim(s) == []
  {
    assert s + [] == s;
    LeadingBlanksPadded(s, []);
  }

  /** A string without edge whitespace is its own trim; so trimming is idempotent. */
  lemma TrimNoEdge(s: string)
    requires NoEdgeWhitespace(s)
    ensures Trim(s) == s
  {
    if s != [] {
      assert [] + s + [] == s;
      TrimPadded([], s, []);
    }
  }

  lemma TrimIdempotent(s: string)
    ensures Trim(Trim(s)) == Trim(s)
  {
    TrimNoEdge(Trim(s));
  }

  /** The string with every whitespace character dropped. */
  function RemoveWhitespace(s: string): (r: string)
    ensures |r| <= |s|
    ensures forall i :: 0 <= i < |r| ==> !IsWhitespace(r[i])
  {
    if s == [] then []
    else if IsWhitespace(s[0]) then RemoveWhitespace(s[1..])
    else [s[0]] + RemoveWhitespace(s[1..])
  }

  lemma {:induction false} RemoveWhitespaceAppend(a: string, b: string)
    ensures RemoveWhitespace(a + b) == RemoveWhitespace(a) + RemoveWhitespace(b)
  {
    if a == [] {
      assert a + b == b;
    } else {
      assert (a + b)[0] == a[0] && (a + b)[1..] == a[1..] + b;
      RemoveWhitespaceAppend(a[1..], b);
    }
  }

  lemma {:induction false} RemoveAllWhitespace(s: string)
    requires AllWhitespace(s)
    ensures RemoveWhitespace(s) == []
  {
    if s != [] {
      RemoveAllWhitespace(s[1..]);
    }
  }

  lemma {:induction false} TrimStartKeepsNonWhitespace(s: string)
    ensures RemoveWhitespace(TrimStart(s)) == RemoveWhitespace(s)
  {
    if |s| > 0 && IsWhitespace(s[0]) {
      TrimStartKeepsNonWhitespace(s[1..]);
      assert TrimStart(s) == TrimStart(s[1..]);
    }
  }

  lemma {:induction false} TrimEndKeepsNonWhitespace(s: string)
    ensures RemoveWhitespace(TrimEnd(s)) == RemoveWhitespace(s)
  {
    if |s| == 0 || !IsWhitespace(s[|s| - 1]) {
      assert TrimEnd(s) == s[..|s|] == s;
    } else {
      var s' := s[..|s| - 1];
      TrimEndKeepsNonWhitespace(s');
      var k := |s'| - TrailingBlanks(s');
      assert TrimEnd(s) == s[..k] == s'[..k] == TrimEnd(s');
      assert s == s' + [s[|s| - 1]];
      RemoveWhitespaceAppend(s', [s[|s| - 1]]);
      assert RemoveWhitespace([s[|s| - 1]]) == [];
    }
  }

  /** Trimming only ever removes whitespace. */
  lemma TrimKeepsNonWhitespace(s: string)
    ensures RemoveWhitespace(Trim(s)) == RemoveWhitespace(s)
  {
    TrimStartKeepsNonWhitespace(s);
    TrimEndKeepsNonWhitespace(TrimStart(s));
  }

  // ---------------------------------------------------------------- join

  /** `parts.join(sep)`: the parts in order with `sep` between neighbours. */
  function Join(parts: seq<string>, sep: string): (r: string)
    ensures parts == [] ==> r == []
  {
    if |parts| == 0 then []
    else if |parts| == 1 then parts[0]
    else parts[0] + sep + Join(parts[1..], sep)
  }

  /** The parts run together with nothing between them. */
  function Concat(parts: seq<string>): string {
    if parts == [] then [] else parts[0] + Concat(parts[1..])
  }

  lemma {:induction false} ConcatAppend(xs: seq<string>, ys: seq<string>)
    ensures Concat(xs + ys) == Concat(xs) + Concat(ys)
  {
    if xs == [] {
      assert xs + ys == ys;
    } else {
      assert (xs + ys)[0] == xs[0] && (xs + ys)[1..] == xs[1..] + ys;
      ConcatAppend(xs[1..], ys);
    }
  }

  lemma ConcatSingle(s: string)
    ensures Concat([s]) == s
  {
    assert [s][1..] == [] && s + [] == s;
  }

  /** Each part with its whitespace dropped. */
  function RemoveWhitespaceEach(parts: seq<string>): (r: seq<string>)
    ensures |r| == |parts|
    ensures forall i :: 0 <= i < |parts| ==> r[i] == RemoveWhitespace(parts[i])
  {
    if parts == [] then [] else [RemoveWhitespace(parts[0])] + RemoveWhitespaceEach(parts[1..])
  }

  /** Joining with a blank separator adds only whitespace between the parts. */
  lemma {:induction false} JoinBlankKeepsNonWhitespace(parts: seq<string>, sep: string)
    requires AllWhitespace(sep)
    ensures RemoveWhitespace(Join(parts, sep)) == Concat(RemoveWhitespaceEach(parts))
  {
    if |parts| == 1 {
      assert RemoveWhitespaceEach(parts) == [RemoveWhitespace(parts[0])];
    } else if |parts| > 1 {
      var rest := Join(parts[1..], sep);
      JoinBlankKeepsNonWhitespace(parts[1..], sep);
      RemoveWhitespaceAppend(parts[0] + sep, rest);
      RemoveWhitespaceAppend(parts[0], sep);
      RemoveAllWhitespace(sep);
      assert RemoveWhitespaceEach(parts)[1..] == RemoveWhitespaceEach(parts[1..]);
    }
  }

  /** Joining non-empty parts that have no edge whitespace leaves no edge whitespace. */
  lemma {:induction false} JoinNoEdge(parts: seq<string>, sep: string)
    requires forall i :: 0 <= i < |parts| ==> parts[i] != [] && NoEdgeWhitespace(parts[i])
    ensures NoEdgeWhitespace(Join(parts, sep))
  {
    if |parts| > 1 {
      JoinNoEdge(parts[1..], sep);
      var rest := Join(parts[1..], sep);
      assert rest != [] by { JoinNonEmpty(parts[1..], sep); }
      var r := parts[0] + sep + rest;
      assert r[0] == parts[0][0];
      assert r[|r| - 1] == rest[|rest| - 1];
    }
  }

  lemma {:induction false} JoinNonEmpty(parts: seq<string>, sep: string)
    requires parts != [] && parts[0] != []
    ensures Join(parts, sep) != []
  {
  }

  lemma JoinThree(a: string, b: string, c: string, sep: string)
    ensures Join([a, b, c], sep) == a + sep + b + sep + c
  {
    assert [a, b, c][1..] == [b, c];
    assert [b, c][1..] == [c];
    assert Join([c], sep) == c;
    assert Join([b, c], sep) == b + sep + c;
    assert Join([a, b, c], sep) == a + sep + (b + sep + c);
  }

  /** `Join` distributes over concatenation of two non-empty part lists. */
  lemma {:induction false} JoinAppend(xs: seq<string>, ys: seq<string>, sep: string)
    requires xs != [] && ys != []
    ensures Join(xs + ys, sep) == Join(xs, sep) + sep + Join(ys, sep)
  {
    if |xs| == 1 {
      assert (xs + ys)[1..] == ys;
    } else {
      assert (xs + ys)[1..] == xs[1..] + ys;
      JoinAppend(xs[1..], ys, sep);
    }
  }

  // ---------------------------------------------------------------- split

  /** `s.split(sep)` for a one-character separator: the runs between separators. */
  function Split(s: string, sep: char): (r: seq<string>)
    ensures |r| > 0
    ensures forall i :: 0 <= i < |r| ==> sep !in r[i]
  {
    if sep !in s then [s]
    else
      var i := IndexOf(s, sep);
      [s[..i]] + Split(s[i + 1..], sep)
  }

  /** The position of the first `c` in `s`. */
  function IndexOf(s: string, c: char): (i: nat)
    requires c in s
    ensures i < |s| && s[i] == c && c !in s[..i]
  {
    if s[0] == c then 0 else 1 + IndexOf(s[1..], c)
  }

  /** Splitting undoes joining, as long as no part holds the separator. */
  lemma {:induction false} SplitJoin(parts: seq<string>, sep: char)
    requires parts != []
    requires forall i :: 0 <= i < |parts| ==> sep !in parts[i]
    ensures Split(Join(parts, [sep]), sep) == parts
  {
    if |parts| > 1 {
      var head, rest := parts[0], Join(parts[1..], [sep]);
      var s := head + [sep] + rest;
      assert s[|head|] == sep;
      assert IndexOf(s, sep) == |head| by {
        IndexOfAfter(head, rest, sep);
      }
      assert s[..|head|] == head && s[|head| + 1..] == rest;
      SplitJoin(parts[1..], sep);
    }
  }

  lemma {:induction false} IndexOfAfter(head: string, rest: string, sep: char)
    requires sep !in head
    ensures IndexOf(head + [sep] + rest, sep) == |head|
  {
    if head != [] {
      assert (head + [sep] + rest)[1..] == head[1..] + [sep] + rest;
      IndexOfAfter(head[1..], rest, sep);
    }
  }

  // ------------------------------------------------------ includes, startsWith

  /** `s.startsWith(prefix)`. */
  function StartsWith(s: string, prefix: string): (b: bool)
    ensures b <==> |prefix| <= |s| && forall i :: 0 <= i < |prefix| ==> s[i] == prefix[i]
  {
    |prefix| <= |s| && s[..|prefix|] == prefix
  }

  /** A possibly absent string in a boolean position (`x || y`, `if (!x)`): present and non-empty. */
  predicate Truthy(s: Option<string>) {
    s.Some? && s.value != ""
  }

  // ------------------------------------------------------------- integers

  predicate IsDigit(c: char) {
    '0' <= c <= '9'
  }

  lemma DigitsHaveNo(s: string, c: char)
    requires AllDigits(s) && !IsDigit(c)
    ensures c !in s
  {
  }

  predicate AllDigits(s: string) {
    forall i :: 0 <= i < |s| ==> IsDigit(s[i])
  }

  function DigitChar(d: nat): (c: char)
    requires d < 10
    ensures IsDigit(c) && DigitValue(c) == d
  {
    ('0' as int + d) as char
  }

  function DigitValue(c: char): (d: nat)
    requires IsDigit(c)
    ensures d < 10
  {
    c as int - '0' as int
  }

  /** A decimal numeral without superfluous leading zeros. */
  predicate CanonicalDigits(s: string) {
    |s| > 0 && AllDigits(s) && (s[0] == '0' ==> |s| == 1)
  }

  /** The decimal numeral of a natural number. */
  function NatToString(n: nat): (r: string)
    ensures CanonicalDigits(r)
    ensures |r| == 1 <==> n < 10
  {
    if n < 10 then [DigitChar(n)] else NatToString(n / 10) + [DigitChar(n % 10)]
  }

  /**
   * `Number.prototype.toString()` of an integer: a minus sign for negative
   * values, then the decimal numeral of the magnitude.
   */
  function IntToString(n: int): (r: string)
    ensures |r| > 0
    ensures r[0] == '-' <==> n < 0
    ensures CanonicalDigits(if n < 0 then r[1..] else r)
  {
    if n < 0 then
      var d := NatToString(-n);
      assert ("-" + d)[1..] == d;
      "-" + d
    else NatToString(n)
  }

  /** The value of a string of decimal digits, most significant first. */
  function DigitsValue(s: string): nat
    requires AllDigits(s)
  {
    if s == [] then 0 else DigitsValue(s[..|s| - 1]) * 10 + DigitValue(s[|s| - 1])
  }

  /** Parses an optionally negated decimal numeral; anything else is `None`. */
  function ParseInt(s: string): (r: Option<int>)
    ensures r.Some? ==> |s| > 0 && (r.value < 0 <==> s[0] == '-' && r.value != 0)
  {
    if |s| > 1 && s[0] == '-' && AllDigits(s[1..]) then Some(0 - DigitsValue(s[1..]))
    else if |s| > 0 && AllDigits(s) then Some(DigitsValue(s))
    else None
  }

  lemma {:induction false} NatToStringValue(n: nat)
    ensures DigitsValue(NatToString(n)) == n
  {
    if n >= 10 {
      NatToStringValue(n / 10);
      var s := NatToString(n);
      assert s[..|s| - 1] == NatToString(n / 10);
    }
  }

  /** Printing an integer and parsing it back gives the integer. */
  lemma IntToStringRoundTrip(n: int)
    ensures ParseInt(IntToString(n)) == Some(n)
  {
    if n < 0 {
      NatToStringValue(-n);
      assert IntToString(n)[1..] == NatToString(-n);
    } else {
      NatToStringValue(n);
    }
  }

  lemma {:induction false} LeadingDigitPositive(s: string)
    requires CanonicalDigits(s) && s[0] != '0'
    ensures DigitsValue(s) > 0
  {
    if |s| > 1 {
      LeadingDigitPositive(s[..|s| - 1]);
    }
  }

  lemma {:induction false} CanonicalDigitsRoundTrip(s: string)
    requires CanonicalDigits(s)
    ensures NatToString(DigitsValue(s)) == s
  {
    if |s| > 1 {
      var p := s[..|s| - 1];
      LeadingDigitPositive(p);
      CanonicalDigitsRoundTrip(p);
      var v := DigitsValue(s);
      assert v / 10 == DigitsValue(p) && v % 10 == DigitValue(s[|s| - 1]);
      assert v >= 10;
      assert DigitChar(v % 10) == s[|s| - 1];
    } else {
      assert DigitChar(DigitValue(s[0])) == s[0];
    }
  }
}

=== FILE: link.dfy ===
/**
 * The navigational `Link`: which element it renders for a `to` string, the
 * class-name parts it assembles, the icon it shows, and the analytics event
 * a click reports.
 */
module Link {
  import opened Wrappers
  import opened JsString
  import NodeText

  datatype IconName = External | Glossary

  /** The size keys of the style table. */
  datatype Size = Lg | Md | Sm | Xs | Xxs

  /** The theme keys of the style table. */
  datatype Theme =
    | Black | BlackNoHover | White | BlackPrimary1 | BlackSecondary3 | BlackSecondary5
    | UnderlinePrimary1 | Blue | Green | BlueGreen | GreenUnderlined | Gray30
    | WhiteUnderlined | Gray50 | Gray70 | Grey70Underlined | Gray80 | Gray90

  /**
   * The theme's key as the source spells it; it is what a click reports as
   * `style`. Every key reads back as its theme, so no two themes share one.
   */
  function ThemeKey(t: Theme): (key: string)
    ensures ThemeNamed(key) == Some(t)
  {
    match t
    case Black => "black"
    case BlackNoHover => "black-no-hover"
    case White => "white"
    case BlackPrimary1 => "black-primary-1"
    case BlackSecondary3 => "black-secondary-3"
    case BlackSecondary5 => "black-secondary-5"
    case UnderlinePrimary1 => "underline-primary-1"
    case Blue => "blue"
    case Green => "green"
    case BlueGreen => "blue-green"
    case GreenUnderlined => "green-underlined"
    case Gray30 => "gray-30"
    case WhiteUnderlined => "white-underlined"
    case Gray50 => "gray-50"
    case Gray70 => "gray-70"
    case Grey70Underlined => "grey-70-underlined"
    case Gray80 => "gray-80"
    case Gray90 => "gray-90"
  }

  /** The theme a key names, if any. */
  function ThemeNamed(key: string): Option<Theme> {
    if key == "black" then Some(Black)
    else if key == "black-no-hover" then Some(BlackNoHover)
    else if key == "white" then Some(White)
    else if key == "black-primary-1" then Some(BlackPrimary1)
    else if key == "black-secondary-3" then Some(BlackSecondary3)
    else if key == "black-secondary-5" then Some(BlackSecondary5)
    else if key == "underline-primary-1" then Some(UnderlinePrimary1)
    else if key == "blue" then Some(Blue)
    else if key == "green" then Some(Green)
    else if key == "blue-green" then Some(BlueGreen)
    else if key == "green-underlined" then Some(GreenUnderlined)
    else if key == "gray-30" then Some(Gray30)
    else if key == "white-underlined" then Some(WhiteUnderlined)
    else if key == "gray-50" then Some(Gray50)
    else if key == "gray-70" then Some(Gray70)
    else if key == "grey-70-underlined" then Some(Grey70Underlined)
    else if key == "gray-80" then Some(Gray80)
    else if key == "gray-90" then Some(Gray90)
    else None
  }

  /** The props; `None` stands for a prop left `undefined`. */
  datatype LinkProps = LinkProps(
    className: Option<string>,
    size: Option<Size>,
    theme: Option<Theme>,
    to: Option<string>,
    withArrow: Option<bool>,
    icon: Option<IconName>,
    prefetch: Option<bool>,
    tagName: Option<string>,
    tagText: Option<string>,
    children: NodeText.Node,
    href: Option<string>,     // an `href` among the rest props spread onto the element
    onClick: bool)            // the caller passes its own `onClick` among the rest props

  /** The element a link renders: a plain anchor, or the framework's client-side link. */
  datatype Element =
    | Anchor(href: string)
    | ClientLink(href: string, prefetch: Option<bool>)

  /** A part of the class list, in the order the source passes it to `clsx`. */
  datatype ClassPart =
    | Base                    // the layout shared by every size and theme
    | SizeStyle(size: Size)
    | ThemeStyle(theme: Theme)
    | Extra(classes: string)  // the caller's own `className`
    | GroupLayout             // hover group and flex layout for an arrow or icon

  datatype LinkView = LinkView(
    element: Element,
    classes: seq<ClassPart>,
    arrow: bool,
    icon: Option<IconName>,
    tracksClicks: bool)       // the element's click handler is the link's own `handleClick`

  /** One call to the analytics collector: its event name and property record. */
  datatype Event = Event(name: string, style: string, text: string, tagName: string)

  const DefaultSize := Md
  const DefaultTheme := Black

  /**
   * The element chosen for `to`. A `#` anywhere wins and gives a plain
   * anchor, even for an internal path; otherwise a leading `/` gives the
   * client-side link, which alone carries `prefetch`; everything else,
   * the empty string included, is a plain anchor. The href is always `to`.
   */
  function Route(to: string, prefetch: Option<bool>): (r: Element)
    ensures r.href == to
    ensures r.ClientLink? <==> '#' !in to && StartsWith(to, "/")
    ensures r.ClientLink? ==> r.prefetch == prefetch
  {
    if '#' in to then Anchor(to)
    else if StartsWith(to, "/") then ClientLink(to, prefetch)
    else Anchor(to)
  }

  /**
   * The class list handed to `clsx`, in its order, with falsy entries
   * dropped: the base layout and the size and theme styles (every key
   * names a non-empty style), the caller's classes when non-empty, and the
   * group layout exactly when there is an arrow or an icon.
   */
  function Classes(size: Size, theme: Theme, extra: string, withArrow: bool, icon: Option<IconName>): (r: seq<ClassPart>)
    ensures |r| == 3 + (if extra != "" then 1 else 0) + (if withArrow || icon.Some? then 1 else 0)
    ensures r[..3] == [Base, SizeStyle(size), ThemeStyle(theme)]
    ensures GroupLayout in r <==> withArrow || icon.Some?
    ensures forall c :: Extra(c) in r <==> c == extra && extra != ""
    ensures forall z :: SizeStyle(z) in r <==> z == size
    ensures forall t :: ThemeStyle(t) in r <==> t == theme
    ensures extra != "" ==> r[3] == Extra(extra)
    ensures withArrow || icon.Some? ==> r[|r| - 1] == GroupLayout
  {
    var styles := [Base, SizeStyle(size), ThemeStyle(theme)];
    var extras := When(extra != "", Extra(extra));
    var group := When(withArrow || icon.Some?, GroupLayout);
    var r := styles + extras + group;
    assert r[..3] == styles;
    assert forall c :: c in r <==> c in styles || c in extras || c in group;
    r
  }

  /** `cond && part` inside `clsx`: the part when the condition holds, else nothing. */
  function When(cond: bool, part: ClassPart): (r: seq<ClassPart>)
    ensures forall c :: c in r <==> cond && c == part
    ensures |r| <= 1
  {
    if cond then [part] else []
  }

  /** `e` with its `href` replaced, as a later attribute in JSX replaces an earlier one. */
  function WithHref(e: Element, href: string): (r: Element)
    ensures r.href == href
    ensures r.ClientLink? <==> e.ClientLink?
    ensures r.ClientLink? ==> r.prefetch == e.prefetch
  {
    match e
    case Anchor(_) => Anchor(href)
    case ClientLink(_, prefetch) => ClientLink(href, prefetch)
  }

  /**
   * What a link renders once its defaults are applied. The kind of element
   * follows `to`; the rest props are spread after `href` and `onClick`, so
   * a caller's own `href` or `onClick` replaces the link's.
   */
  function Render(p: LinkProps): (v: LinkView)
    ensures v.element.ClientLink? <==> Route(p.to.GetOr(""), p.prefetch).ClientLink?
    ensures v.element.ClientLink? ==> v.element.prefetch == p.prefetch
    ensures v.element.href == if p.href.Some? then p.href.value else p.to.GetOr("")
    ensures p.to.None? && p.href.None? ==> v.element == Anchor("")
    ensures v.tracksClicks <==> !p.onClick
    ensures v.arrow == p.withArrow.GetOr(false)
    ensures v.icon == p.icon
    ensures v.classes == Classes(p.size.GetOr(DefaultSize), p.theme.GetOr(DefaultTheme), p.className.GetOr(""), v.arrow, v.icon)
    ensures GroupLayout in v.classes <==> v.arrow || v.icon.Some?
  {
    var withArrow := p.withArrow.GetOr(false);
    var to := p.to.GetOr("");
    LinkView(
      WithHref(Route(to, p.prefetch), p.href.GetOr(to)),
      Classes(p.size.GetOr(DefaultSize), p.theme.GetOr(DefaultTheme), p.className.GetOr(""), withArrow, p.icon),
      withArrow,
      p.icon,
      !p.onClick)
  }

  /**
   * The events a click sends. Without a (non-empty) `tagName` none; with
   * one, exactly one "Link clicked" event whose style is the theme, whose
   * tag name is `tagName`, and whose text is `tagText` when that is
   * non-empty and otherwise the text of the link's children. These are
   * sent only while the link keeps its own handler (`Render`'s `tracksClicks`).
   */
  function HandleClick(p: LinkProps): (events: seq<Event>)
    ensures |events| == if Truthy(p.tagName) then 1 else 0
    ensures forall e :: e in events ==>
      && e.name == "Link clicked"
      && e.style == ThemeKey(p.theme.GetOr(DefaultTheme))
      && e.tagName == p.tagName.value
      && e.text == (if Truthy(p.tagText) then p.tagText.value else NodeText.GetNodeText(p.children))
  {
    if !Truthy(p.tagName) then []
    else
      var text := if Truthy(p.tagText) then p.tagText.value else NodeText.GetNodeText(p.children);
      [Event("Link clicked", ThemeKey(p.theme.GetOr(DefaultTheme)), text, p.tagName.value)]
  }
}

=== FILE: node_text.dfy ===
/**
 * `getNodeText`: the text a tree of render nodes shows, found by walking
 * the tree. Leaves are null/undefined, strings, numbers and booleans;
 * branches are arrays and elements (anything with `props`), whose text is
 * that of `props.children`; any other value yields the empty string.
 */
module NodeText {
  import opened Wrappers
  import opened JsString

  /** A render node, told apart the way the source's `typeof`/`Array.isArray`/`'props' in` tests do. */
  datatype Node =
    | Null                      // `null` or `undefined`
    | Str(s: string)
    | Num(n: int)               // integral numbers only
    | Bool(b: bool)
    | Arr(items: seq<Node>)
    | Element(children: Node)   // an object with `props`; absent `props.children` is `Null`
    | Other                     // any other object, a function, a symbol or a bigint

  /**
   * The node's text. A string leaf comes back unchanged, a number as its
   * decimal numeral, and null, booleans and unrecognised values as `""`;
   * an element is transparent; an array joins its items' texts with one
   * space and trims the result, so it never starts or ends with whitespace.
   */
  function GetNodeText(node: Node): (r: string)
    ensures node.Null? || node.Bool? || node.Other? ==> r == ""
    ensures node.Str? ==> r == node.s
    ensures node.Num? ==> ParseInt(r) == Some(node.n)
    ensures node.Num? ==> r == IntToString(node.n)
    ensures node.Arr? ==> NoEdgeWhitespace(r)
    ensures node.Arr? && node.items == [] ==> r == ""
  {
    match node
    case Null => ""
    case Str(s) => s
    case Num(n) => IntToStringRoundTrip(n); IntToString(n)
    case Bool(_) => ""
    case Arr(items) => Trim(Join(Texts(items), " "))
    case Element(children) => GetNodeText(children)
    case Other => ""
  }

  /** An element is transparent: its text is exactly that of its `props.children`. */
  lemma ElementTransparent(children: Node)
    ensures GetNodeText(Element(children)) == GetNodeText(children)
  {
  }

  /** `items.map(getNodeText)`. */
  function Texts(items: seq<Node>): (r: seq<string>)
    ensures |r| == |items|
    ensures forall i :: 0 <= i < |items| ==> r[i] == GetNodeText(items[i])
  {
    if items == [] then [] else [GetNodeText(items[0])] + Texts(items[1..])
  }

  // ------------------------------------------------ a reference definition

  /** The texts of the string and number leaves, in document order. */
  function Leaves(node: Node): seq<string> {
    match node
    case Str(s) => [s]
    case Num(n) => [IntToString(n)]
    case Arr(items) => LeavesOf(items)
    case Element(children) => Leaves(children)
    case _ => []
  }

  function LeavesOf(items: seq<Node>): seq<string> {
    if items == [] then [] else Leaves(items[0]) + LeavesOf(items[1..])
  }

  /**
   * Up to whitespace, the text is exactly the leaves' texts run together in
   * document order: joining and trimming add and remove only blanks, and
   * nothing else is dropped or reordered.
   */
  lemma {:induction false} TextIsLeavesUpToWhitespace(node: Node)
    ensures RemoveWhitespace(GetNodeText(node)) == RemoveWhitespace(Concat(Leaves(node)))
  {
    match node
    case Str(s) =>
      ConcatSingle(s);
    case Num(n) =>
      ConcatSingle(IntToString(n));
    case Arr(items) =>
      ArrayUpToWhitespace(items);
    case Element(children) =>
      TextIsLeavesUpToWhitespace(children);
    case _ =>
  }

  lemma {:induction false} ArrayUpToWhitespace(items: seq<Node>)
    ensures RemoveWhitespace(GetNodeText(Arr(items))) == RemoveWhitespace(Concat(LeavesOf(items)))
    decreases items, 1
  {
    var joined := Join(Texts(items), " ");
    calc {
      RemoveWhitespace(GetNodeText(Arr(items)));
      RemoveWhitespace(Trim(joined));
      { TrimKeepsNonWhitespace(joined); }
      RemoveWhitespace(joined);
      { JoinBlankKeepsNonWhitespace(Texts(items), " "); }
      Concat(RemoveWhitespaceEach(Texts(items)));
      { ItemsUpToWhitespace(items); }
      RemoveWhitespace(Concat(LeavesOf(items)));
    }
  }

  lemma {:induction false} ItemsUpToWhitespace(items: seq<Node>)
    ensures Concat(RemoveWhitespaceEach(Texts(items))) == RemoveWhitespace(Concat(LeavesOf(items)))
    decreases items, 0
  {
    if items != [] {
      var head, tail := items[0], items[1..];
      TextIsLeavesUpToWhitespace(head);
      ItemsUpToWhitespace(tail);
      assert Texts(items)[1..] == Texts(tail);
      assert RemoveWhitespaceEach(Texts(items))[1..] == RemoveWhitespaceEach(Texts(tail));
      ConcatAppend(Leaves(head), LeavesOf(tail));
      RemoveWhitespaceAppend(Concat(Leaves(head)), Concat(LeavesOf(tail)));
    }
  }

  // ------------------------------------- when joining is plain word spacing

  /** A leaf text that the join-and-trim cannot disturb: non-empty, without edge blanks. */
  predicate Word(s: string) {
    s != [] && NoEdgeWhitespace(s)
  }

  /**
   * A tree with at least one leaf below every branch, every leaf a string
   * or number whose text is a `Word`, and no null, boolean or other value.
   */
  predicate WordTree(node: Node) {
    match node
    case Str(s) => Word(s)
    case Num(n) => true
    case Arr(items) => items != [] && WordForest(items)
    case Element(children) => WordTree(children)
    case _ => false
  }

  predicate WordForest(items: seq<Node>) {
    items == [] || (WordTree(items[0]) && WordForest(items[1..]))
  }

  /**
   * On a word tree the text is the leaves joined by single spaces, so nested
   * arrays and elements flatten out.
   */
  lemma {:induction false} WordTreeText(node: Node)
    requires WordTree(node)
    ensures GetNodeText(node) == Join(Leaves(node), " ")
    ensures Leaves(node) != [] && forall i :: 0 <= i < |Leaves(node)| ==> Word(Leaves(node)[i])
  {
    match node
    case Str(s) =>
    case Num(n) =>
      IntToStringWord(n);
    case Arr(items) =>
      WordForestText(items);
      JoinNoEdge(LeavesOf(items), " ");
      TrimNoEdge(Join(LeavesOf(items), " "));
    case Element(children) =>
      WordTreeText(children);
  }

  lemma {:induction false} WordForestText(items: seq<Node>)
    requires items != [] && WordForest(items)
    ensures Join(Texts(items), " ") == Join(LeavesOf(items), " ")
    ensures LeavesOf(items) != [] && forall i :: 0 <= i < |LeavesOf(items)| ==> Word(LeavesOf(items)[i])
  {
    var head, tail := items[0], items[1..];
    WordTreeText(head);
    if tail == [] {
      assert LeavesOf(items) == Leaves(head);
      assert Texts(items) == [GetNodeText(head)];
    } else {
      WordForestText(tail);
      assert Texts(items) == [GetNodeText(head)] + Texts(tail);
      JoinAppend([GetNodeText(head)], Texts(tail), " ");
      JoinAppend(Leaves(head), LeavesOf(tail), " ");
    }
  }

  lemma IntToStringWord(n: int)
    ensures Word(IntToString(n))
  {
    var s := IntToString(n);
    var d := NatToString(if n < 0 then -n else n);
    assert s[|s| - 1] == d[|d| - 1];
  }

  /**
   * The join is not bare concatenation: a null sibling still contributes an
   * empty part, so two separators end up side by side.
   */
  lemma NullSiblingDoublesSpace()
    ensures GetNodeText(Arr([Str("a"), Null, Str("b")])) == "a  b"
  {
    var parts := Texts([Str("a"), Null, Str("b")]);
    assert parts == ["a", "", "b"];
    assert Join(parts, " ") == "a  b";
    TrimNoEdge("a  b");
  }

  /** A bare string keeps its surrounding blanks; wrapped in an array it loses them. */
  lemma StringLeafKeepsBlanks()
    ensures GetNodeText(Str(" a ")) == " a "
    ensures GetNodeText(Arr([Str(" a ")])) == "a"
  {
    assert Texts([Str(" a ")]) == [" a "];
    assert Join([" a "], " ") == " " + "a" + " ";
    TrimPadded(" ", "a", " ");
  }
}

=== FILE: wrappers.dfy ===
/** An optional value: JavaScript's `undefined`/`null` versus a present value. */
module Wrappers {

  datatype Option<+T> = None | Some(value: T) {

    /** The value, or `default` when it is absent (a destructuring default). */
    function GetOr(default: T): T {
      match this
      case Some(v) => v
      case None => default
    }
  }
}
